=== FILE: README.md ===
# create-cached-fn, modelled in Dafny

`createCachedFn(promiseFunc, filePath, alwaysRunPromise)` wraps an
asynchronous producer. The returned `getResult` serves a result from memory,
then from a JSON cache file, then from a producer execution already in
flight, and only then starts a fresh execution. Every successful execution
writes its result to the file before delivering it. In eager mode
(`alwaysRunPromise = true`) the very first call waits for its own execution.
Every later call in eager mode starts a background refresh; in lazy mode a
call starts one only when no execution is in flight. The call then returns a
value from memory or the file when one is there; when both are empty it
waits on the execution in flight, or starts one and waits on that.

The model is a transition system over immutable values:

- `CachedFn.Cells` holds the closure's three variables, `cachedResult`,
  `promiseInProgress` and `firstRun`, plus the mode flag fixed at
  construction. `promiseInProgress` names an execution by its id, so it is
  visible which execution the cell holds.
- `Scheduler.World` adds the cache file (`disk`), every execution started
  so far (`execs`) and every call made so far (`calls`). Each entry of
  `execs` is one producer invocation, so `Invocations(w)` is the
  invocation counter.
- `Scheduler.Event` is one atomic segment of the code between two `await`s.
  An event either starts a call, or resumes something suspended: a producer
  or file write that settles, a `.then`/`.catch` handler that runs, a file
  read that settles, or the first eager call that resumes. `Scheduler.Run`
  plays any interleaving a scheduler picks.
- The producer and the file system are oracles. The event carries what the
  producer delivered or which fault a read or write hit. A read reports the
  file as it was when the read was issued or as it is when the read
  completes.

Modules follow the structure of `index.ts`:

- `Storage`: `readCache` and `writeCache`.
- `Execution`: `executePromise`.
- `CachedFn`: the cells and the segments of `getResult`.
- `Scheduler`: the interleaved system.

The properties proved about the system are in these modules:

- `Invariants`: reachable-state invariants and per-call bounds.
- `SingleFlight`: the coordination guarantee.
- `Persistence`: the file across a restart.
- `Races`: where the code departs from an idealised single-flight cache.

## Where the code departs from an idealised single-flight cache

An idealised cache would run the producer at most once while a value is
known, run at most one execution at a time, keep a value in memory once it
has one, and let a later call retry after a failure. The model follows
`index.ts`, and each place where the code does otherwise is a proved lemma:

- In lazy mode a call starts the producer whenever nothing is in flight,
  even if memory already holds a value
  (`Races.LazyCallRunsProducerDespiteWarmMemory`,
  `Races.LazyWarmInstanceReached`).
  For the same reason, a fresh lazy instance that finds the file still
  invokes the producer once (`Persistence.ResultSurvivesRestart`).
- In eager mode every call after the first starts an execution and
  overwrites the cell, even while another one is in flight. So two
  executions can run at once (`Races.EagerRunsTwoExecutionsAtOnce`).
- Settlement clears `promiseInProgress` without checking which execution
  it holds. In eager mode this can drop a newer execution that is still
  running (`Races.SettlementClearsNewerHandle`,
  `Races.FirstCallClearsNewerHandle`). In lazy mode the cell never holds
  another execution while one is in flight
  (`SingleFlight.LazyAtMostOneInFlight`).
- The fallback execution has no `catch`, so its failure leaves the cells as
  they are (`Races.FallbackFailureKeepsHandle`). In lazy mode that means
  the rejected promise stays in the cell; in eager mode the cell may
  already hold a refresh a later call started. In lazy mode with no cache
  file, every later call whose read finds no file then rejects with that
  old failure and invokes no producer (`Races.PoisonPersists`). Two calls
  to a fresh instance can reach that state, each failing chain having a
  call joined to it before it rejects (`Races.PoisonReached`).
- Line 78 assigns the read's result to `cachedResult` even when a
  concurrent settlement has just filled it. A read issued before the file
  was written reports it absent, wipes memory and starts a second execution
  (`Races.StaleAbsentReadWipesMemory`). Memory can therefore go from a value
  back to empty.
- A failed cache write makes `executePromise` reject. The caller sees a
  `WriteFailed` error, as it would a producer failure (`Execution.Advance`),
  and memory is not updated (`CachedFn.Settle`).

## Model

| member | source | states |
|---|---|---|
| Storage.Observe | index.ts:23-24 | what `fs.readFile` delivers: with no fault, the file's value exactly when the file exists and "not found" exactly when it does not; with a fault, an error carrying that fault |
| Storage.ReadCache | index.ts:21-32 | the parsed value when the file exists, "absent" exactly on ENOENT, and a rejection carrying the original error for every other read or parse failure |
| Storage.WriteCache | index.ts:34-36 | a write that succeeds leaves the value in the file and fulfils; a failed write rejects with `WriteFailed` and leaves the file as it was |
| Storage.ReadAfterWrite | index.ts:21-36 | round trip: after a successful write, a fault-free read delivers exactly the written value |
| Storage.AbsentIsNotAnError | index.ts:25-30 | `readCache` rejects exactly when the file system reports a fault other than absence; a missing file yields "absent" |
| Execution.Advance | index.ts:38-42 | the file changes only when a write of the producer's value succeeds, and that same step fulfils the run with that value; a producer failure writes nothing and rejects with the producer's error; a write failure rejects |
| Execution.ProducerThenWriteThenReturn | index.ts:38-42 | over a whole run: a run fulfilled with v consisted of "producer delivers v" then "write succeeds", and v is in the file; a run the producer rejected wrote nothing; nothing is written before the run settles |
| CachedFn.Construct | index.ts:15-19 | a new instance starts with empty memory, nothing in flight, `firstRun` set and the given mode |
| CachedFn.Begin | index.ts:44-78 | first eager call: `firstRun` cleared, exactly one execution started and awaited, memory not consulted. Otherwise: eager mode always starts a refresh and lazy mode starts one exactly when nothing is in flight; a started refresh replaces the cell; a memory hit returns at once; a miss suspends on the file read |
| CachedFn.AfterFirst | index.ts:48-51 | on success the first eager call stores and returns its own result and clears the cell; on failure it rejects with that failure and leaves the cells as they are: the cell holds the failed execution, unless a later call has replaced it |
| CachedFn.AfterRead | index.ts:78-94 | a read error rejects the call and changes nothing; otherwise memory takes the read's result, even "absent"; a found value is returned; otherwise the call joins the execution in flight; otherwise it starts exactly one fallback and joins it |
| CachedFn.Settle | index.ts:55-92 | on success the handlers put the result in memory and clear the cell; on failure memory is untouched, a refresh clears the cell and a fallback leaves everything as it is |
| Scheduler.HandleOutcome | index.ts:55-92 | the promise a cell holds settles only once the execution resolved and, for a refresh or fallback, its `.then`/`.catch` ran; it settles with the execution's own outcome, since `.then` returns the result and `.catch` rethrows |
| Scheduler.CallOutcome | index.ts:78-94 | a call suspended on its read or its first execution has not settled; a call that returned `promiseInProgress` settles with that execution's handler-chain outcome |
| Scheduler.Step | index.ts:44-94 | one resumed segment: only a new call adds a call, at most one execution starts, and only from a new call or a call passing its read, with that call's arguments; what a call or execution started with never changes; a new call issues its read against the current file; only a successful write changes the file |
| Invariants.RunKeepsValid | index.ts:44-95 | every interleaving preserves the invariants: references point at existing executions and calls, only call 0 ever takes the eager path, and no call has started more than its share of executions |
| Invariants.AtMostTwoExecutionsPerCall | index.ts:45-94 | from a fresh instance, under any interleaving, each call has started at most two producer executions. In eager mode the first call starts exactly one, and it is the only eager-path execution |
| Invariants.EagerFirstCallGetsItsOwnResult | index.ts:45-51 | in eager mode the first call never reads the file or joins another execution, and it settles with exactly its own execution's outcome, whatever the file holds |
| Invariants.FirstRunNeverComesBack | index.ts:19-46 | along any trace the mode never changes and `firstRun`, once false, stays false |
| SingleFlight.LazyAtMostOneInFlight | index.ts:63-94 | in lazy mode, under every interleaving and with failures, stale reads and late calls, at most one producer execution is in flight, and it is the one `promiseInProgress` holds |
| SingleFlight.SingleFlightOnColdLazyInstance | index.ts:63-86 | calls that all reach a cold lazy instance before anything settles cause exactly one producer invocation; every call that has settled got its value; once everything has settled, all have |
| Persistence.FileHoldsDeliveredValue | index.ts:38-42 | under any interleaving the file holds its start-up content or a value some execution was fulfilled with (a write counts once it has settled) |
| Persistence.ResultSurvivesRestart | index.ts:63-82 | whatever a run left in the file (a value some execution delivered, or what was already there), a fresh lazy instance's first call returns it from the file under any later interleaving, provided its read reports the file as at issue or no write settled successfully before the read completed (a write still in progress is not counted); the producer is still invoked |
| Races.LazyCallRunsProducerDespiteWarmMemory | index.ts:63-76 | in lazy mode, with a value in memory and nothing in flight, a call returns the value and still invokes the producer |
| Races.LazyWarmInstanceReached | index.ts:63-76 | a lazy instance whose first refresh completed invokes the producer again on the second call |
| Races.EagerRunsTwoExecutionsAtOnce | index.ts:45-62 | two calls to a fresh eager instance leave two producer executions running, with the cell holding the newer |
| Races.SettlementClearsNewerHandle | index.ts:55-62 | in eager mode, a settling refresh, or a succeeding fallback, empties the cell even when it holds another execution, and leaves that execution running |
| Races.FirstCallClearsNewerHandle | index.ts:47-50 | the first eager call clears the cell after its own execution although a second call's execution is still running there |
| Races.FallbackFailureKeepsHandle | index.ts:88-92 | a failing fallback leaves all cells untouched: in lazy mode the rejected handle stays in the cell; in eager mode the cell keeps whatever a later call put there |
| Races.RefreshFailureRejectsJoinersAndAllowsRetry | index.ts:59-86 | a failing refresh rejects every call joined to it with its failure and clears the cell, so the next lazy call starts a new execution |
| Races.PoisonPersists | index.ts:63-86 | once a lazy instance holds a rejected handle with empty memory and no file, each further call whose read finds no file rejects with the old failure, invokes nothing, and leaves the instance in the same state |
| Races.PoisonReached | index.ts:63-92 | a fresh lazy instance reaches that state through two calls: the first joins the refresh, which fails, the second starts a fallback, which fails too; each call settles with its chain's failure |
| Races.StaleAbsentReadWipesMemory | index.ts:78-94 | a read issued before the first write reports "absent" after memory was filled; memory is emptied and a second execution starts although the file holds the value |

## Left out

- File I/O, `utf-8` and JSON: the file is a cell holding the value itself. Serialisation is taken to be an exact round trip. A torn or unparsable file appears as a read fault.
- A failed `writeFile` may leave a truncated file. The model keeps the previous content instead; a later read of a torn file is covered by read faults.
- A read reports the file as at its start or its end, not a value written and overwritten while it was pending.
- The `console.log` on line 79 is output only.
- JavaScript's event loop and microtask order: the model admits every interleaving of its suspension points, including orders Node would not produce.
- A write takes effect at the instant it settles. `fs.writeFile` truncates and rewrites the file before its promise settles, so a real read may see the new value, or an empty file, while the execution is still writing. The empty file is covered by read faults; the early view of the new value is not modelled. Four statements rest on this: `Execution.ProducerThenWriteThenReturn` ("nothing is written before the run settles"); the conjunct of `SingleFlight.SingleFlightOnColdLazyInstance` that a settled call's execution has resolved; `Persistence.FileHoldsDeliveredValue`, whose "fulfilled with" would otherwise be "delivered by a producer, possibly still writing"; and `Persistence.ResultSurvivesRestart`, whose condition counts only writes that have settled, so a real read issued while the call's own refresh is writing may already see the new value.
- The producer's behaviour: its outcome is chosen per execution by the scheduler. Its argument list is one opaque `Arg`, recorded but not interpreted.
- A producer that returns `null`: the code cannot tell it from "no value" (lines 74 and 80), so values are non-null.
- Several instances or processes sharing one file.
- A refresh that fails when no call joined it is an unhandled promise rejection, and by Node's default that ends the process. The model keeps the instance running and leaves process termination out.
- SingleFlight.SingleFlightOnColdLazyInstance: stated only for traces where all calls arrive before anything settles, nothing fails and reads report the file as at completion. Without these conditions the calls need not share exactly one invocation (see `Races`); at most one execution in flight still holds (`SingleFlight.LazyAtMostOneInFlight`).
- Persistence.ResultSurvivesRestart: stated for schedules where call 0's read reports the file as at issue, or no write settles successfully before the read completes. Otherwise the call's own refresh may have replaced the file first, and the call returns that newer value.

=== FILE: base.dfy ===
/** Shared vocabulary of the model: the opaque types that stand for what the
    wrapper never inspects, the optional and outcome wrappers, and the three
    ways a call can fail. */
module Base {

  /** The producer's result type `T`. JavaScript's `null` is not a member:
      `cachedResult: T | null` becomes `Option<Value>`, so a producer that
      legitimately returns `null` is outside the model. */
  type Value(==)

  /** The argument list handed to `getResult` and forwarded to the producer. */
  type Arg

  /** Whatever a rejected promise carries: the producer's error, or the
      error object of a failed file operation. */
  type Cause(==)

  /** Index of a producer execution in the order executions were started. */
  type ExecId = nat

  /** Index of a `getResult` call in the order calls were made. */
  type CallId = nat

  datatype Option<T> = None | Some(value: T)

  /** A settled promise: fulfilled with a value or rejected with an error. */
  datatype Outcome<T, E> = Ok(value: T) | Fail(error: E)

  /** Why a call or an execution rejects. */
  datatype Error =
    | ProducerFailed(cause: Cause)  // the wrapped producer rejected
    | WriteFailed(cause: Cause)     // writing the result to the cache file failed
    | ReadFailed(cause: Cause)      // reading the cache file failed other than by absence
}

=== FILE: cached_fn.dfy ===
/** The closure state of `createCachedFn` (index.ts:12-19) and the atomic
    segments of `getResult` (index.ts:44-95). A segment runs from one
    suspension point to the next without interruption, so each is a pure
    function of the cells; the scheduler decides when the next one runs. */
module CachedFn {
  import opened Base

  /** The variables the returned closure captures. `promiseInProgress`
      names the execution whose promise the cell holds. */
  datatype Cells = Cells(
    cachedResult: Option<Value>,        // index.ts:17
    promiseInProgress: Option<ExecId>,  // index.ts:18
    firstRun: bool,                     // index.ts:19
    alwaysRunPromise: bool)             // index.ts:15, fixed at construction

  /** The cells right after `createCachedFn` returns. */
  function Construct(alwaysRunPromise: bool): (s: Cells)
    ensures s.cachedResult.None? && s.promiseInProgress.None?
    ensures s.firstRun && s.alwaysRunPromise == alwaysRunPromise
  {
    Cells(None, None, true, alwaysRunPromise)
  }

  /** Which promise the cell receives when an execution starts. */
  datatype Kind =
    | Eager     // the bare `executePromise` promise of the first eager call (line 47)
    | Refresh   // `executePromise().then(..).catch(..)` (lines 55-62 and 64-71)
    | Fallback  // `executePromise().then(..)` with no `catch` (lines 88-92)

  /** Where a call is suspended, or how it ended. */
  datatype Pc =
    | AwaitingFirst(e: ExecId)  // `await promiseInProgress` of the first eager call (line 48)
    | AwaitingRead              // `await readCache()` (line 78)
    | Joined(e: ExecId)         // returned the promise of execution `e` (lines 85 and 94)
    | Returned(v: Value)        // fulfilled with `v`
    | Failed(err: Error)        // rejected with `err`

  /** What a segment did: the cells after it, the kind of the execution it
      started (that execution's id is the `next` it was given), and where
      the call stands afterwards. */
  datatype Segment = Segment(cells: Cells, started: Option<Kind>, pc: Pc)

  /** The first-call branch of index.ts:45 is taken. */
  predicate EagerFirst(s: Cells) {
    s.firstRun && s.alwaysRunPromise
  }

  /** A call to `getResult` up to its first suspension (index.ts:44-78).
      `next` is the id the producer execution gets if one starts. */
  function Begin(s: Cells, next: ExecId): (r: Segment)
    // the mode is fixed and `firstRun` never becomes true again
    ensures r.cells.alwaysRunPromise == s.alwaysRunPromise
    ensures r.cells.firstRun ==> s.firstRun
    // eager first call: one execution, held in the cell and awaited; memory is not consulted
    ensures EagerFirst(s) ==>
      && !r.cells.firstRun
      && r.started == Some(Eager)
      && r.cells.promiseInProgress == Some(next)
      && r.cells.cachedResult == s.cachedResult
      && r.pc == AwaitingFirst(next)
    // otherwise: step 2 starts a refresh in eager mode always, in lazy mode exactly when nothing is in flight
    ensures !EagerFirst(s) && s.alwaysRunPromise ==> r.started == Some(Refresh)
    ensures !EagerFirst(s) && !s.alwaysRunPromise ==>
      (r.started == Some(Refresh) <==> s.promiseInProgress.None?) && (r.started.None? <==> s.promiseInProgress.Some?)
    ensures r.started.Some? ==> r.cells.promiseInProgress == Some(next)
    ensures r.started.None? ==> r.cells.promiseInProgress == s.promiseInProgress
    // then the memory check: a hit is returned at once, a miss suspends on the file read
    ensures !EagerFirst(s) ==> r.cells.firstRun == s.firstRun && r.cells.cachedResult == s.cachedResult
    ensures !EagerFirst(s) && s.cachedResult.Some? ==> r.pc == Returned(s.cachedResult.value)
    ensures !EagerFirst(s) && s.cachedResult.None? ==> r.pc == AwaitingRead
  {
    if EagerFirst(s) then
      Segment(s.(firstRun := false, promiseInProgress := Some(next)), Some(Eager), AwaitingFirst(next))
    else
      var start := s.alwaysRunPromise || s.promiseInProgress.None?;
      var s1 := if start then s.(promiseInProgress := Some(next)) else s;
      var started := if start then Some(Refresh) else None;
      match s1.cachedResult
      case Some(v) => Segment(s1, started, Returned(v))
      case None => Segment(s1, started, AwaitingRead)
  }

  /** The first eager call resumes after its execution settled
      (index.ts:48-51). A rejection propagates out of the `await` before
      line 49, so the cells stay as they are: the cell holds the failed
      execution, unless a later call has replaced it. */
  function AfterFirst(s: Cells, outcome: Outcome<Value, Error>): (r: Segment)
    ensures r.started.None?
    ensures r.cells.firstRun == s.firstRun && r.cells.alwaysRunPromise == s.alwaysRunPromise
    ensures outcome.Ok? ==>
      && r.pc == Returned(outcome.value)
      && r.cells.cachedResult == Some(outcome.value)
      && r.cells.promiseInProgress.None?
    ensures outcome.Fail? ==> r.pc == Failed(outcome.error) && r.cells == s
  {
    match outcome
    case Ok(v) => Segment(s.(promiseInProgress := None, cachedResult := Some(v)), None, Returned(v))
    case Fail(err) => Segment(s, None, Failed(err))
  }

  /** The call resumes after `readCache` settled (index.ts:78-94). A read
      error rejects the call and touches nothing. Otherwise the read's
      result is assigned to `cachedResult` whatever that cell holds by now
      (an absent file assigns `null`); then the value is returned if there
      is one, else the call joins the execution in flight, else it starts a
      fallback execution and returns its promise. */
  function AfterRead(s: Cells, read: Outcome<Option<Value>, Error>, next: ExecId): (r: Segment)
    ensures r.cells.firstRun == s.firstRun && r.cells.alwaysRunPromise == s.alwaysRunPromise
    ensures read.Fail? ==> r == Segment(s, None, Failed(read.error))
    ensures read.Ok? ==> r.cells.cachedResult == read.value
    ensures read.Ok? && read.value.Some? ==>
      r.pc == Returned(read.value.value) && r.started.None? && r.cells.promiseInProgress == s.promiseInProgress
    ensures read.Ok? && read.value.None? && s.promiseInProgress.Some? ==>
      r.pc == Joined(s.promiseInProgress.value) && r.started.None? && r.cells.promiseInProgress == s.promiseInProgress
    ensures read.Ok? && read.value.None? && s.promiseInProgress.None? ==>
      r.pc == Joined(next) && r.started == Some(Fallback) && r.cells.promiseInProgress == Some(next)
  {
    match read
    case Fail(err) => Segment(s, None, Failed(err))
    case Ok(found) =>
      var s1 := s.(cachedResult := found);
      if found.Some? then Segment(s1, None, Returned(found.value))
      else if s1.promiseInProgress.Some? then Segment(s1, None, Joined(s1.promiseInProgress.value))
      else Segment(s1.(promiseInProgress := Some(next)), Some(Fallback), Joined(next))
  }

  /** The `.then`/`.catch` handlers attached to a refresh or fallback
      execution, run once `executePromise` settled (index.ts:55-62, 64-71,
      88-92). They clear the cell without looking at which execution it
      holds; the fallback chain has no `catch`, so its failure leaves the
      cell as it is. */
  function Settle(s: Cells, kind: Kind, outcome: Outcome<Value, Error>): (r: Cells)
    requires kind != Eager
    ensures r.firstRun == s.firstRun && r.alwaysRunPromise == s.alwaysRunPromise
    ensures outcome.Ok? ==> r.cachedResult == Some(outcome.value) && r.promiseInProgress.None?
    ensures outcome.Fail? ==> r.cachedResult == s.cachedResult
    ensures outcome.Fail? && kind == Refresh ==> r.promiseInProgress.None?
    ensures outcome.Fail? && kind == Fallback ==> r == s
  {
    match outcome
    case Ok(v) => s.(cachedResult := Some(v), promiseInProgress := None)
    case Fail(_) => if kind == Refresh then s.(promiseInProgress := None) else s
  }
}

=== FILE: execution.dfy ===
/** One run of `executePromise` (index.ts:38-42): call the producer, await
    it, write its result to the cache file, await the write, fulfil with the
    result. Each await is a suspension point, so a run advances by the two
    settle events below, which the scheduler interleaves with everything
    else. */
module Execution {
  import opened Base
  import opened Storage

  datatype Phase =
    | Producing                                 // awaiting the producer (line 39)
    | Writing(v: Value)                         // awaiting `writeCache(v)` (line 40)
    | Resolved(outcome: Outcome<Value, Error>)  // `executePromise` has settled

  datatype ExecEvent =
    | ProducerSettles(result: Outcome<Value, Cause>)  // the producer's promise settles
    | WriteSettles(fault: Option<Cause>)              // the file write settles, `None` on success

  /** The event is the one the run is suspended on. */
  predicate Accepts(p: Phase, ev: ExecEvent) {
    || (p.Producing? && ev.ProducerSettles?)
    || (p.Writing? && ev.WriteSettles?)
  }

  /** A run's phase together with the cache file's content. */
  datatype Progress = Progress(phase: Phase, disk: Option<Value>)

  /** Resume a suspended run. The file changes only when a write of a value
      the producer delivered succeeds, and that same step fulfils the run
      with that value; a producer failure writes nothing and rejects. */
  function Advance(p: Phase, disk: Option<Value>, ev: ExecEvent): (r: Progress)
    requires Accepts(p, ev)
    ensures p.Producing? ==> r.disk == disk
    ensures p.Producing? && ev.result.Ok? ==> r.phase == Writing(ev.result.value)
    ensures p.Producing? && ev.result.Fail? ==> r.phase == Resolved(Fail(ProducerFailed(ev.result.error)))
    ensures r.disk != disk ==> p.Writing? && r.disk == Some(p.v)
    ensures r.phase.Resolved? && r.phase.outcome.Ok? ==> p.Writing? && r.phase.outcome.value == p.v && r.disk == Some(p.v)
    ensures p.Writing? && ev.fault.None? ==> r == Progress(Resolved(Ok(p.v)), Some(p.v))
    ensures p.Writing? && ev.fault.Some? ==> r == Progress(Resolved(Fail(WriteFailed(ev.fault.value))), disk)
  {
    match ev
    case ProducerSettles(Ok(v)) => Progress(Writing(v), disk)
    case ProducerSettles(Fail(c)) => Progress(Resolved(Fail(ProducerFailed(c))), disk)
    case WriteSettles(fault) =>
      var w := WriteCache(disk, p.v, fault);
      Progress(Resolved(w.outcome), w.disk)
  }

  /** Feed a run a sequence of events; `None` when an event arrives that the
      run is not suspended on. */
  function Drive(p: Phase, disk: Option<Value>, evs: seq<ExecEvent>): (r: Option<Progress>)
    decreases |evs|
  {
    if |evs| == 0 then Some(Progress(p, disk))
    else if !Accepts(p, evs[0]) then None
    else
      var q := Advance(p, disk, evs[0]);
      Drive(q.phase, q.disk, evs[1..])
  }

  /** The order of index.ts:38-42 over a whole run: a run fulfils with `v`
      exactly when it took the events "producer delivers `v`, write
      succeeds", and then `v` is in the file; a run rejected by its producer
      took that one event; a run rejected by its write took a successful
      producer event and then the failed write; a rejected run, and a run
      that has not settled, left the file untouched. */
  lemma {:induction false} ProducerThenWriteThenReturn(disk: Option<Value>, evs: seq<ExecEvent>)
    requires Drive(Producing, disk, evs).Some?
    ensures var r := Drive(Producing, disk, evs).value;
      && (!r.phase.Resolved? ==> r.disk == disk)
      && (r.phase.Resolved? && r.phase.outcome.Ok? ==>
            && evs == [ProducerSettles(Ok(r.phase.outcome.value)), WriteSettles(None)]
            && r.disk == Some(r.phase.outcome.value))
      && (r.phase.Resolved? && r.phase.outcome.Fail? && r.phase.outcome.error.ProducerFailed? ==>
            && evs == [ProducerSettles(Fail(r.phase.outcome.error.cause))]
            && r.disk == disk)
      && (r.phase.Resolved? && r.phase.outcome.Fail? ==> !r.phase.outcome.error.ReadFailed?)
      && (r.phase.Resolved? && r.phase.outcome.Fail? && r.phase.outcome.error.WriteFailed? ==>
            && |evs| == 2 && evs[0].ProducerSettles? && evs[0].result.Ok?
            && evs[1] == WriteSettles(Some(r.phase.outcome.error.cause))
            && r.disk == disk)
    // conversely, "producer delivers `v`, write succeeds" fulfils the run with `v` and leaves `v` in the file
    ensures |evs| == 2 && evs[0].ProducerSettles? && evs[0].result.Ok? && evs[1] == WriteSettles(None) ==>
      Drive(Producing, disk, evs).value == Progress(Resolved(Ok(evs[0].result.value)), Some(evs[0].result.value))
  {
    if |evs| > 0 {
      var q := Advance(Producing, disk, evs[0]);
      if q.phase.Writing? {
        var rest := evs[1..];
        if |rest| > 0 {
          var q2 := Advance(q.phase, q.disk, rest[0]);
          assert q2.phase.Resolved?;
          assert Drive(q2.phase, q2.disk, rest[1..]).Some?;
          assert |rest[1..]| == 0;
          assert evs == [evs[0], rest[0]];
        }
      } else {
        assert Drive(q.phase, q.disk, evs[1..]).Some?;
        assert |evs[1..]| == 0;
        assert evs == [evs[0]];
      }
    }
  }
}

=== FILE: invariants.dfy ===
/** Facts every reachable world satisfies, and what follows from them: a
    call starts at most two producer executions, the first eager call starts
    exactly one and settles with that execution's own outcome, and
    `firstRun` never becomes true again. */
module Invariants {
  import opened Base
  import opened Execution
  import opened CachedFn
  import opened Scheduler

  /** How many of `execs` call `c` started. */
  function StartedBy(execs: seq<Exec>, c: CallId): (n: nat)
    ensures n <= |execs|
    ensures n == 0 <== (forall i :: 0 <= i < |execs| ==> execs[i].origin != c)
    decreases |execs|
  {
    if |execs| == 0 then 0
    else
      var last := execs[|execs| - 1];
      StartedBy(execs[..|execs| - 1], c) + (if last.origin == c then 1 else 0)
  }

  lemma StartedByAppend(execs: seq<Exec>, more: seq<Exec>, c: CallId)
    requires |more| <= 1
    ensures StartedBy(execs + more, c) == StartedBy(execs, c) + (if |more| == 1 && more[0].origin == c then 1 else 0)
  {
    if |more| == 1 {
      assert (execs + more)[..|execs + more| - 1] == execs;
    } else {
      assert execs + more == execs;
    }
  }

  /** Only the origins matter to the count. */
  lemma {:induction false} StartedBySameOrigins(a: seq<Exec>, b: seq<Exec>, c: CallId)
    requires |a| == |b|
    requires forall i :: 0 <= i < |a| ==> a[i].origin == b[i].origin
    ensures StartedBy(a, c) == StartedBy(b, c)
    decreases |a|
  {
    if |a| > 0 {
      StartedBySameOrigins(a[..|a| - 1], b[..|b| - 1], c);
    }
  }

  /** Every reference held in the world points at something that exists. */
  predicate RefsInRange(w: World) {
    && (|w.calls| == 0 ==> |w.execs| == 0)
    && (w.cells.promiseInProgress.Some? ==> w.cells.promiseInProgress.value < |w.execs|)
    && (forall c :: 0 <= c < |w.calls| ==> w.calls[c].pc.AwaitingFirst? ==> w.calls[c].pc.e < |w.execs|)
    && (forall c :: 0 <= c < |w.calls| ==> w.calls[c].pc.Joined? ==> w.calls[c].pc.e < |w.execs|)
    && (forall e :: 0 <= e < |w.execs| ==> w.execs[e].origin < |w.calls|)
    && (forall e :: 0 <= e < |w.execs| ==> w.execs[e].handled ==> w.execs[e].kind != Eager && w.execs[e].phase.Resolved?)
  }

  /** The eager first-call path is taken once, by call 0, which starts
      execution 0 and settles exactly as that execution does. */
  predicate FirstCallFacts(w: World) {
    && (w.cells.alwaysRunPromise ==> (w.cells.firstRun <==> |w.calls| == 0))
    && (!w.cells.alwaysRunPromise ==> w.cells.firstRun)
    && (forall e :: 0 <= e < |w.execs| ==> w.execs[e].kind == Eager ==> e == 0 && w.execs[e].origin == 0)
    && (forall c :: 0 <= c < |w.calls| ==> w.calls[c].pc.AwaitingFirst? ==> c == 0 && w.calls[c].pc.e == 0)
    && (w.cells.alwaysRunPromise && |w.calls| > 0 ==> FirstCallSettledByExec0(w))
  }

  predicate FirstCallSettledByExec0(w: World)
    requires |w.calls| > 0
  {
    && |w.execs| > 0 && w.execs[0].kind == Eager
    && match w.calls[0].pc
       case AwaitingFirst(e) => true
       case Returned(v) => w.execs[0].phase == Resolved(Ok(v))
       case Failed(err) => w.execs[0].phase == Resolved(Fail(err))
       case _ => false
  }

  /** A call that has not passed its read has started at most one
      execution, and no call has started more than two. */
  predicate Budget(w: World) {
    && (forall c :: 0 <= c < |w.calls| ==> StartedBy(w.execs, c) <= 2)
    && (forall c :: 0 <= c < |w.calls| && !w.calls[c].pc.Joined? && !w.calls[c].pc.Returned? && !w.calls[c].pc.Failed?
          ==> StartedBy(w.execs, c) <= 1)
    && (w.cells.alwaysRunPromise && |w.calls| > 0 ==> StartedBy(w.execs, 0) == 1)
  }

  predicate Valid(w: World) {
    RefsInRange(w) && FirstCallFacts(w) && Budget(w)
  }

  lemma InitValid(m: bool, d: Option<Value>)
    ensures Valid(Init(m, d))
  {
  }

  /** A call id nobody has used yet has started nothing. */
  lemma FreshCallStartedNothing(w: World)
    requires RefsInRange(w)
    ensures StartedBy(w.execs, |w.calls|) == 0
  {
  }

  lemma AdvanceKeepsValid(w: World, e: ExecId, ev: ExecEvent)
    requires Valid(w) && e < |w.execs| && Accepts(w.execs[e].phase, ev)
    ensures Valid(AdvanceExec(w, e, ev))
    ensures AdvanceExec(w, e, ev).cells == w.cells && AdvanceExec(w, e, ev).calls == w.calls
  {
    var w' := AdvanceExec(w, e, ev);
    forall c | 0 <= c < |w.calls|
      ensures StartedBy(w'.execs, c) == StartedBy(w.execs, c)
    {
      StartedBySameOrigins(w.execs, w'.execs, c);
    }
    if w.cells.alwaysRunPromise && |w.calls| > 0 {
      assert e != 0 || w.calls[0].pc.AwaitingFirst?;
    }
  }

  lemma HandlerKeepsValid(w: World, e: ExecId)
    requires Valid(w) && Enabled(w, HandlerRuns(e))
    ensures Valid(Step(w, HandlerRuns(e)))
  {
    var w' := Step(w, HandlerRuns(e));
    forall c | 0 <= c < |w.calls|
      ensures StartedBy(w'.execs, c) == StartedBy(w.execs, c)
    {
      StartedBySameOrigins(w.execs, w'.execs, c);
    }
  }

  lemma ResumeKeepsValid(w: World, c: CallId)
    requires Valid(w) && Enabled(w, FirstResumes(c))
    ensures Valid(Step(w, FirstResumes(c)))
  {
  }

  lemma InvokeKeepsValid(w: World, a: Arg)
    requires Valid(w)
    ensures Valid(Step(w, Invoke(a)))
  {
    var seg := Begin(w.cells, |w.execs|);
    var more := Spawn(seg.started, |w.calls|, a);
    var w' := Step(w, Invoke(a));
    FreshCallStartedNothing(w);
    forall c | 0 <= c <= |w.calls|
      ensures StartedBy(w'.execs, c) == StartedBy(w.execs, c) + (if |more| == 1 && c == |w.calls| then 1 else 0)
    {
      StartedByAppend(w.execs, more, c);
    }
  }

  lemma ReadKeepsValid(w: World, c: CallId, fault: Option<Cause>, early: bool)
    requires Valid(w) && Enabled(w, ReadDone(c, fault, early))
    ensures Valid(Step(w, ReadDone(c, fault, early)))
  {
    var seg := AfterRead(w.cells, Storage.ReadCache(Storage.Observe(Seen(w, c, early), fault)), |w.execs|);
    var more := Spawn(seg.started, c, w.calls[c].arg);
    var w' := Step(w, ReadDone(c, fault, early));
    assert w' == World(seg.cells, w.disk, w.execs + more, w.calls[c := w.calls[c].(pc := seg.pc)]);
    ReadKeepsRefs(w, c, seg, more, w');
    ReadKeepsFirstCallFacts(w, c, seg, more, w');
    ReadKeepsBudget(w, c, seg, more, w');
  }

  /** The shape of a world right after call `c` passed its read. */
  predicate AfterReadShape(w: World, c: CallId, seg: Segment, more: seq<Exec>, w': World) {
    && c < |w.calls| && w.calls[c].pc.AwaitingRead?
    && seg.cells.firstRun == w.cells.firstRun && seg.cells.alwaysRunPromise == w.cells.alwaysRunPromise
    && (seg.cells.promiseInProgress.Some? ==>
          seg.cells.promiseInProgress == w.cells.promiseInProgress || seg.cells.promiseInProgress == Some(|w.execs|))
    && (seg.cells.promiseInProgress == Some(|w.execs|) ==> |more| == 1)
    && (seg.pc.Joined? ==> (seg.pc.e == |w.execs| && |more| == 1) || Some(seg.pc.e) == w.cells.promiseInProgress)
    && !seg.pc.AwaitingFirst? && !seg.pc.AwaitingRead?
    && |more| <= 1
    && (|more| == 1 ==> more[0].origin == c && more[0].kind == Fallback && !more[0].handled)
    && w' == World(seg.cells, w.disk, w.execs + more, w.calls[c := w.calls[c].(pc := seg.pc)])
  }

  lemma ReadKeepsRefs(w: World, c: CallId, seg: Segment, more: seq<Exec>, w': World)
    requires Valid(w) && AfterReadShape(w, c, seg, more, w')
    ensures RefsInRange(w')
  {
    assert forall e :: 0 <= e < |w.execs| ==> w'.execs[e] == w.execs[e];
  }

  lemma ReadKeepsFirstCallFacts(w: World, c: CallId, seg: Segment, more: seq<Exec>, w': World)
    requires Valid(w) && AfterReadShape(w, c, seg, more, w')
    ensures FirstCallFacts(w')
  {
    assert forall e :: 0 <= e < |w.execs| ==> w'.execs[e] == w.execs[e];
    if w.cells.alwaysRunPromise && |w.calls| > 0 {
      assert c != 0;
      assert w'.calls[0] == w.calls[0];
    }
  }

  lemma ReadKeepsBudget(w: World, c: CallId, seg: Segment, more: seq<Exec>, w': World)
    requires Valid(w) && AfterReadShape(w, c, seg, more, w')
    ensures Budget(w')
  {
    forall c' | 0 <= c' < |w.calls|
      ensures StartedBy(w'.execs, c') == StartedBy(w.execs, c') + (if |more| == 1 && c' == c then 1 else 0)
    {
      StartedByAppend(w.execs, more, c');
    }
    if w.cells.alwaysRunPromise && |w.calls| > 0 {
      assert c != 0;
    }
  }

  lemma StepKeepsValid(w: World, ev: Event)
    requires Valid(w) && Enabled(w, ev)
    ensures Valid(Step(w, ev))
  {
    match ev
    case Invoke(a) => InvokeKeepsValid(w, a);
    case ProducerDone(e, o) => AdvanceKeepsValid(w, e, ProducerSettles(o));
    case WriteDone(e, f) => AdvanceKeepsValid(w, e, WriteSettles(f));
    case HandlerRuns(e) => HandlerKeepsValid(w, e);
    case ReadDone(c, f, early) => ReadKeepsValid(w, c, f, early);
    case FirstResumes(c) => ResumeKeepsValid(w, c);
  }

  lemma {:induction false} RunKeepsValid(w: World, evs: seq<Event>)
    requires Valid(w) && Run(w, evs).Some?
    ensures Valid(Run(w, evs).value)
    decreases |evs|
  {
    if |evs| > 0 {
      StepKeepsValid(w, evs[0]);
      RunKeepsValid(Step(w, evs[0]), evs[1..]);
    }
  }

  /** index.ts:45-94: however the calls interleave, no call ever starts
      more than two producer executions (one at step 2, one fallback), and
      in eager mode the first call starts exactly one and no other call
      takes that path. */
  lemma AtMostTwoExecutionsPerCall(m: bool, d: Option<Value>, evs: seq<Event>)
    requires Run(Init(m, d), evs).Some?
    ensures var w := Run(Init(m, d), evs).value;
      && (forall c :: 0 <= c < |w.calls| ==> StartedBy(w.execs, c) <= 2)
      && (m && |w.calls| > 0 ==> StartedBy(w.execs, 0) == 1)
      && (forall e :: 0 <= e < |w.execs| && w.execs[e].kind == Eager ==> e == 0 && w.execs[e].origin == 0)
  {
    InitValid(m, d);
    RunKeepsValid(Init(m, d), evs);
    FirstRunNeverComesBack(Init(m, d), evs);
  }

  /** Cold-start determinism, index.ts:45-51: in eager mode the first call
      settles exactly as its own execution does, whatever the cache file
      holds, and it never reads the file. */
  lemma EagerFirstCallGetsItsOwnResult(d: Option<Value>, evs: seq<Event>)
    requires Run(Init(true, d), evs).Some?
    ensures var w := Run(Init(true, d), evs).value;
      |w.calls| > 0 ==>
        && |w.execs| > 0 && w.execs[0].kind == Eager && w.execs[0].origin == 0
        && !w.calls[0].pc.AwaitingRead? && !w.calls[0].pc.Joined?
        && (CallOutcome(w, 0).Some? ==> w.execs[0].phase.Resolved? && CallOutcome(w, 0) == Some(w.execs[0].phase.outcome))
  {
    InitValid(true, d);
    RunKeepsValid(Init(true, d), evs);
    FirstRunNeverComesBack(Init(true, d), evs);
  }

  /** index.ts:19, 46: `firstRun` only ever goes from true to false, and
      the mode never changes. */
  lemma {:induction false} FirstRunNeverComesBack(w: World, evs: seq<Event>)
    requires Run(w, evs).Some?
    ensures Run(w, evs).value.cells.alwaysRunPromise == w.cells.alwaysRunPromise
    ensures Run(w, evs).value.cells.firstRun ==> w.cells.firstRun
    decreases |evs|
  {
    if |evs| > 0 {
      FirstRunNeverComesBack(Step(w, evs[0]), evs[1..]);
    }
  }
}

=== FILE: persistence.dfy ===
/** The cache file across the life of an instance and across a restart: it
    only ever holds what it held at start-up or a value some execution
    delivered, and a fresh instance serves that value from the file. */
module Persistence {
  import opened Base
  import opened Execution
  import opened CachedFn
  import opened Scheduler

  /** The file holds its start-up content `d`, or a value one of the
      executions has been fulfilled with. */
  predicate FileFromProducer(w: World, d: Option<Value>) {
    || w.disk == d
    || (w.disk.Some? && exists e :: 0 <= e < |w.execs| && w.execs[e].phase == Resolved(Ok(w.disk.value)))
  }

  /** A settled `executePromise` stays settled, with the same outcome, and
      executions are never removed. */
  lemma ResolvedIsFinal(w: World, ev: Event)
    requires Enabled(w, ev)
    ensures |Step(w, ev).execs| >= |w.execs|
    ensures forall e :: 0 <= e < |w.execs| && w.execs[e].phase.Resolved? ==> Step(w, ev).execs[e].phase == w.execs[e].phase
  {
  }

  /** The file changes only when a write succeeds, and then to the value
      the writing execution is fulfilled with in the same step. */
  lemma FileChangesOnlyByWrite(w: World, ev: Event)
    requires Enabled(w, ev)
    ensures var w' := Step(w, ev);
      w'.disk != w.disk ==>
        && ev.WriteDone? && ev.fault.None? && w'.disk.Some?
        && w'.execs[ev.e].phase == Resolved(Ok(w'.disk.value))
  {
  }

  lemma StepKeepsFileFromProducer(w: World, d: Option<Value>, ev: Event)
    requires FileFromProducer(w, d) && Enabled(w, ev)
    ensures FileFromProducer(Step(w, ev), d)
  {
    var w' := Step(w, ev);
    ResolvedIsFinal(w, ev);
    FileChangesOnlyByWrite(w, ev);
    if w'.disk != w.disk {
      assert w'.execs[ev.e].phase == Resolved(Ok(w'.disk.value));
    } else if w.disk != d {
      var e :| 0 <= e < |w.execs| && w.execs[e].phase == Resolved(Ok(w.disk.value));
      assert w'.execs[e].phase == Resolved(Ok(w'.disk.value));
    }
  }

  /** index.ts:35, 40: whatever happens, the file holds what it held at
      start-up or a value some producer execution delivered and wrote. */
  lemma {:induction false} FileHoldsDeliveredValue(w: World, d: Option<Value>, evs: seq<Event>)
    requires FileFromProducer(w, d) && Run(w, evs).Some?
    ensures FileFromProducer(Run(w, evs).value, d)
    decreases |evs|
  {
    if |evs| > 0 {
      StepKeepsFileFromProducer(w, d, evs[0]);
      FileHoldsDeliveredValue(Step(w, evs[0]), d, evs[1..]);
    }
  }

  /** No write settles successfully anywhere in `evs`. A write still in
      progress does not count: the model's file changes when the write
      settles. */
  predicate NoWrite(evs: seq<Event>) {
    forall i :: 0 <= i < |evs| ==> !(evs[i].WriteDone? && evs[i].fault.None?)
  }

  /** While call 0 waits on its read, what it saw at issue stays recorded,
      executions are only added, and without a successful write the file
      keeps its content. */
  lemma {:induction false} BeforeRead(w: World, v: Value, pre: seq<Event>)
    requires |w.calls| >= 1 && w.calls[0].readStart == Some(v)
    requires Run(w, pre).Some?
    ensures var w' := Run(w, pre).value;
      && |w'.calls| >= 1 && w'.calls[0].readStart == Some(v)
      && |w'.execs| >= |w.execs|
      && (NoWrite(pre) && w.disk == Some(v) ==> w'.disk == Some(v))
    decreases |pre|
  {
    if |pre| > 0 {
      ResolvedIsFinal(w, pre[0]);
      FileChangesOnlyByWrite(w, pre[0]);
      var w1 := Step(w, pre[0]);
      assert w1.calls[0].readStart == w.calls[0].readStart;
      if NoWrite(pre) {
        assert NoWrite(pre[1..]) by {
          forall i | 0 <= i < |pre[1..]|
            ensures !(pre[1..][i].WriteDone? && pre[1..][i].fault.None?)
          {
            assert pre[1..][i] == pre[i + 1];
          }
        }
      }
      BeforeRead(w1, v, pre[1..]);
    }
  }

  /** A call that has returned a value keeps it, and executions are only
      added. */
  lemma {:induction false} ReturnedStays(w: World, c: CallId, evs: seq<Event>)
    requires c < |w.calls| && w.calls[c].pc.Returned?
    requires Run(w, evs).Some?
    ensures c < |Run(w, evs).value.calls| && Run(w, evs).value.calls[c] == w.calls[c]
    ensures |Run(w, evs).value.execs| >= |w.execs|
    decreases |evs|
  {
    if |evs| > 0 {
      ResolvedIsFinal(w, evs[0]);
      ReturnedStays(Step(w, evs[0]), c, evs[1..]);
    }
  }

  /** Persistence round trip: whatever an instance left in the file, a new
      lazy instance's first call returns it from the file, whatever else
      happens meanwhile, provided its read reports the file as it was when
      issued, or no write succeeded before the read completed. Otherwise
      the call's own refresh may already have replaced the file, and the
      call returns that newer value instead. The producer is still invoked,
      by step 2 (index.ts:63-64). */
  lemma ResultSurvivesRestart(m: bool, d: Option<Value>, evs: seq<Event>, v: Value,
                              a: Arg, pre: seq<Event>, early: bool, post: seq<Event>)
    requires Run(Init(m, d), evs).Some? && Run(Init(m, d), evs).value.disk == Some(v)
    requires early || NoWrite(pre)
    requires Run(Init(false, Some(v)), [Invoke(a)] + pre + [ReadDone(0, None, early)] + post).Some?
    ensures FileFromProducer(Run(Init(m, d), evs).value, d)
    ensures var w := Run(Init(false, Some(v)), [Invoke(a)] + pre + [ReadDone(0, None, early)] + post).value;
      && |w.calls| >= 1
      && CallOutcome(w, 0) == Some(Ok(v))
      && Invocations(w) >= 1
  {
    FileHoldsDeliveredValue(Init(m, d), d, evs);
    var w0 := Init(false, Some(v));
    var w1 := Step(w0, Invoke(a));
    assert w1.calls[0].readStart == Some(v) && |w1.execs| == 1;
    assert Run(w0, [Invoke(a)]) == Some(w1);
    RunAppend(w0, [Invoke(a)], pre);
    RunAppend(w0, [Invoke(a)] + pre, [ReadDone(0, None, early)]);
    RunAppend(w0, [Invoke(a)] + pre + [ReadDone(0, None, early)], post);
    var w2 := Run(w1, pre).value;
    BeforeRead(w1, v, pre);
    assert Seen(w2, 0, early) == Some(v);
    var w3 := Step(w2, ReadDone(0, None, early));
    assert w3.calls[0].pc == Returned(v);
    assert Run(w2, [ReadDone(0, None, early)]) == Some(w3);
    ReturnedStays(w3, 0, post);
  }
}

=== FILE: races.dfy ===
/** What the code does where it departs from an idealised single-flight
    cache. Each general lemma holds in every state it describes; each
    concrete trace shows such a state is reached from a fresh instance. */
module Races {
  import opened Base
  import opened Execution
  import opened CachedFn
  import opened Scheduler

  /** index.ts:63-64: in lazy mode a call starts the producer whenever
      nothing is in flight, even though memory already holds a value that
      the call returns at once. */
  lemma LazyCallRunsProducerDespiteWarmMemory(w: World, a: Arg)
    requires !w.cells.alwaysRunPromise
    requires w.cells.cachedResult.Some? && w.cells.promiseInProgress.None?
    ensures var w' := Step(w, Invoke(a));
      && Invocations(w') == Invocations(w) + 1
      && w'.calls[|w.calls|].pc == Returned(w.cells.cachedResult.value)
  {
  }

  /** A lazy instance whose first call has completed its refresh re-runs the
      producer on the next call. */
  lemma LazyWarmInstanceReached(a: Arg, b: Arg, v: Value)
    ensures var evs := [Invoke(a), ProducerDone(0, Ok(v)), WriteDone(0, None), HandlerRuns(0), Invoke(b)];
      && Run(Init(false, None), evs).Some?
      && Invocations(Run(Init(false, None), evs).value) == 2
      && |Run(Init(false, None), evs).value.calls| == 2
      && Run(Init(false, None), evs).value.calls[1].pc == Returned(v)
  {
    var w0 := Init(false, None);
    var w1 := Step(w0, Invoke(a));
    var w2 := Step(w1, ProducerDone(0, Ok(v)));
    var w3 := Step(w2, WriteDone(0, None));
    var w4 := Step(w3, HandlerRuns(0));
    var w5 := Step(w4, Invoke(b));
    assert w4.cells.cachedResult == Some(v) && w4.cells.promiseInProgress.None?;
    var evs := [Invoke(a), ProducerDone(0, Ok(v)), WriteDone(0, None), HandlerRuns(0), Invoke(b)];
    assert Run(w4, evs[4..]) == Some(w5);
    assert Run(w3, evs[3..]) == Some(w5);
    assert Run(w2, evs[2..]) == Some(w5);
    assert Run(w1, evs[1..]) == Some(w5);
  }

  /** index.ts:54-55: in eager mode every call after the first starts an
      execution and overwrites the cell, even with one in flight, so two
      producer executions run at once. */
  lemma EagerRunsTwoExecutionsAtOnce(d: Option<Value>, a: Arg, b: Arg)
    ensures var w := Run(Init(true, d), [Invoke(a), Invoke(b)]);
      && w.Some?
      && Invocations(w.value) == 2
      && w.value.execs[0].phase.Producing? && w.value.execs[1].phase.Producing?
      && w.value.cells.promiseInProgress == Some(1)
  {
    var w1 := Step(Init(true, d), Invoke(a));
    var w2 := Step(w1, Invoke(b));
    assert Run(w1, [Invoke(b)]) == Some(w2);
  }

  /** index.ts:57, 60, 90: in eager mode a refresh that settles, or a
      fallback that succeeds, empties the cell even when the cell holds a
      newer execution still in flight. (In lazy mode the cell never holds
      another execution while one is unhandled.) */
  lemma SettlementClearsNewerHandle(w: World, e: ExecId)
    requires Enabled(w, HandlerRuns(e))
    requires w.execs[e].kind == Refresh || w.execs[e].phase.outcome.Ok?
    requires w.cells.promiseInProgress.Some? && w.cells.promiseInProgress.value != e
    ensures Step(w, HandlerRuns(e)).cells.promiseInProgress.None?
    ensures forall x :: 0 <= x < |w.execs| && x != e ==> Step(w, HandlerRuns(e)).execs[x] == w.execs[x]
  {
  }

  /** index.ts:49: the first eager call clears the cell after its own
      execution, though a second call has meanwhile put a newer execution
      there that is still running. */
  lemma FirstCallClearsNewerHandle(d: Option<Value>, a: Arg, b: Arg, v: Value)
    ensures var evs := [Invoke(a), Invoke(b), ProducerDone(0, Ok(v)), WriteDone(0, None), FirstResumes(0)];
      && Run(Init(true, d), evs).Some?
      && Run(Init(true, d), evs).value.cells.promiseInProgress.None?
      && Invocations(Run(Init(true, d), evs).value) == 2
      && Run(Init(true, d), evs).value.execs[1].phase.Producing?
  {
    var w0 := Init(true, d);
    var w1 := Step(w0, Invoke(a));
    var w2 := Step(w1, Invoke(b));
    var w3 := Step(w2, ProducerDone(0, Ok(v)));
    var w4 := Step(w3, WriteDone(0, None));
    var w5 := Step(w4, FirstResumes(0));
    var evs := [Invoke(a), Invoke(b), ProducerDone(0, Ok(v)), WriteDone(0, None), FirstResumes(0)];
    assert Run(w4, evs[4..]) == Some(w5);
    assert Run(w3, evs[3..]) == Some(w5);
    assert Run(w2, evs[2..]) == Some(w5);
    assert Run(w1, evs[1..]) == Some(w5);
  }

  /** index.ts:88-92: the fallback chain has no `catch`, so when its
      execution fails the cells stay as they are: in lazy mode the cell
      keeps holding the rejected promise; in eager mode it holds whatever a
      later call put there. */
  lemma FallbackFailureKeepsHandle(w: World, e: ExecId)
    requires Enabled(w, HandlerRuns(e))
    requires w.execs[e].kind == Fallback && w.execs[e].phase.outcome.Fail?
    ensures Step(w, HandlerRuns(e)).cells == w.cells
  {
  }

  /** index.ts:59-61, 68-70: when a refresh fails, every call joined to it
      rejects with that failure, and in lazy mode the next call may start
      a fresh attempt, since the cell was cleared. */
  lemma RefreshFailureRejectsJoinersAndAllowsRetry(w: World, e: ExecId, a: Arg)
    requires Enabled(w, HandlerRuns(e))
    requires w.execs[e].kind == Refresh && w.execs[e].phase.outcome.Fail?
    requires !w.cells.alwaysRunPromise && w.cells.promiseInProgress == Some(e)
    ensures var w1 := Step(w, HandlerRuns(e));
      && (forall c :: 0 <= c < |w.calls| && w.calls[c].pc == Joined(e) ==>
            CallOutcome(w1, c) == Some(w.execs[e].phase.outcome))
      && w1.cells.promiseInProgress.None?
      && var w2 := Step(w1, Invoke(a));
      && Invocations(w2) == Invocations(w) + 1
      && w2.cells.promiseInProgress == Some(|w.execs|)
  {
    var w1 := Step(w, HandlerRuns(e));
    forall c | 0 <= c < |w.calls| && w.calls[c].pc == Joined(e)
      ensures CallOutcome(w1, c) == Some(w.execs[e].phase.outcome)
    {
      assert w1.calls[c] == w.calls[c];
      assert w1.execs[e].handled;
    }
  }

  /** A lazy instance stuck on a rejected promise: nothing in memory or in
      the file, and the cell holds an execution whose promise rejected. */
  predicate Poisoned(w: World) {
    && !w.cells.alwaysRunPromise
    && w.cells.cachedResult.None? && w.disk.None?
    && w.cells.promiseInProgress.Some? && w.cells.promiseInProgress.value < |w.execs|
    && var x := w.execs[w.cells.promiseInProgress.value];
       HandleOutcome(x).Some? && HandleOutcome(x).value.Fail?
  }

  /** Once poisoned, every further call whose read finds no file rejects
      with the old failure without invoking the producer, and the instance
      stays poisoned, where an idealised cache would let a later call try
      the producer again. */
  lemma PoisonPersists(w: World, a: Arg, early: bool)
    requires Poisoned(w)
    ensures var c := |w.calls|;
      var w1 := Step(w, Invoke(a));
      && Enabled(w1, ReadDone(c, None, early))
      && var w2 := Step(w1, ReadDone(c, None, early));
      && Invocations(w2) == Invocations(w)
      && CallOutcome(w2, c) == HandleOutcome(w.execs[w.cells.promiseInProgress.value])
      && CallOutcome(w2, c).value.Fail?
      && w2.cells == w.cells
      && Poisoned(w2)
  {
    var c := |w.calls|;
    var w1 := Step(w, Invoke(a));
    assert w1.calls[c].pc == AwaitingRead && w1.execs == w.execs;
    var w2 := Step(w1, ReadDone(c, None, early));
    assert Seen(w1, c, early).None?;
    assert w2.calls[c].pc == Joined(w.cells.promiseInProgress.value);
    assert w2.execs == w.execs;
  }

  /** A fresh lazy instance is poisoned by two calls: both find no file,
      the first joins the refresh, which fails, and the second then starts a
      fallback, which fails too. Each failing chain has a call joined to it
      before it rejects, so neither rejection goes unhandled. */
  lemma PoisonReached(a: Arg, b: Arg, c1: Cause, c2: Cause)
    ensures var evs := [Invoke(a), Invoke(b), ReadDone(0, None, false), ProducerDone(0, Fail(c1)), HandlerRuns(0),
                        ReadDone(1, None, false), ProducerDone(1, Fail(c2)), HandlerRuns(1)];
      && Run(Init(false, None), evs).Some?
      && var w := Run(Init(false, None), evs).value;
      && Poisoned(w)
      && |w.calls| == 2 && |w.execs| == 2
      && w.calls[0].pc == Joined(0) && w.calls[1].pc == Joined(1)
      && CallOutcome(w, 0) == Some(Fail(ProducerFailed(c1)))
      && CallOutcome(w, 1) == Some(Fail(ProducerFailed(c2)))
  {
    var w0 := Init(false, None);
    var w1 := Step(w0, Invoke(a));
    var w2 := Step(w1, Invoke(b));
    assert w2.calls[0].pc == AwaitingRead && w2.calls[1].pc == AwaitingRead && |w2.execs| == 1;
    var w3 := Step(w2, ReadDone(0, None, false));
    assert w3.calls[0].pc == Joined(0) && |w3.execs| == 1;
    var w4 := Step(w3, ProducerDone(0, Fail(c1)));
    var w5 := Step(w4, HandlerRuns(0));
    assert w5.cells.promiseInProgress.None? && w5.calls[1].pc == AwaitingRead;
    var w6 := Step(w5, ReadDone(1, None, false));
    assert w6.calls[1].pc == Joined(1) && |w6.execs| == 2;
    var w7 := Step(w6, ProducerDone(1, Fail(c2)));
    var w8 := Step(w7, HandlerRuns(1));
    assert w8.cells.promiseInProgress == Some(1);
    var evs := [Invoke(a), Invoke(b), ReadDone(0, None, false), ProducerDone(0, Fail(c1)), HandlerRuns(0),
                ReadDone(1, None, false), ProducerDone(1, Fail(c2)), HandlerRuns(1)];
    assert Run(w7, evs[7..]) == Some(w8);
    assert Run(w6, evs[6..]) == Some(w8);
    assert Run(w5, evs[5..]) == Some(w8);
    assert Run(w4, evs[4..]) == Some(w8);
    assert Run(w3, evs[3..]) == Some(w8);
    assert Run(w2, evs[2..]) == Some(w8);
    assert Run(w1, evs[1..]) == Some(w8);
  }

  /** index.ts:78: a read issued before the refresh wrote the file reports
      it absent after the refresh settled; the assignment then wipes the
      value memory already held, and the call starts a second execution
      although the file now holds the value. */
  lemma StaleAbsentReadWipesMemory(a: Arg, v: Value)
    ensures var evs := [Invoke(a), ProducerDone(0, Ok(v)), WriteDone(0, None), HandlerRuns(0),
                        ReadDone(0, None, true)];
      && Run(Init(false, None), evs).Some?
      && var w := Run(Init(false, None), evs).value;
      && Invocations(w) == 2 && |w.calls| == 1
      && w.calls[0].pc == Joined(1)
      && w.cells.cachedResult.None?
      && w.disk == Some(v)
  {
    var w0 := Init(false, None);
    var w1 := Step(w0, Invoke(a));
    var w2 := Step(w1, ProducerDone(0, Ok(v)));
    var w3 := Step(w2, WriteDone(0, None));
    var w4 := Step(w3, HandlerRuns(0));
    assert w4.cells.cachedResult == Some(v) && w4.cells.promiseInProgress.None?;
    var w5 := Step(w4, ReadDone(0, None, true));
    assert Seen(w4, 0, true) == None;
    var evs := [Invoke(a), ProducerDone(0, Ok(v)), WriteDone(0, None), HandlerRuns(0), ReadDone(0, None, true)];
    assert Run(w4, evs[4..]) == Some(w5);
    assert Run(w3, evs[3..]) == Some(w5);
    assert Run(w2, evs[2..]) == Some(w5);
    assert Run(w1, evs[1..]) == Some(w5);
  }
}

=== FILE: scheduler.dfy ===
/** The running system: the closure's cells, the cache file, every producer
    execution started so far and every call made so far, advanced one
    atomic segment at a time by events a scheduler picks. JavaScript's event
    loop is one particular scheduler; the model admits every interleaving of
    the suspension points of index.ts. */
module Scheduler {
  import opened Base
  import opened Storage
  import opened Execution
  import opened CachedFn

  /** One `executePromise` run, i.e. one producer invocation. `origin` is
      the call that started it; `handled` records that the `.then`/`.catch`
      handlers attached to it have run. */
  datatype Exec = Exec(kind: Kind, origin: CallId, arg: Arg, phase: Phase, handled: bool)

  /** One `getResult` call. `readStart` is the cache file's content when
      the call reached line 78 and issued its read. */
  datatype Call = Call(arg: Arg, pc: Pc, readStart: Option<Value>)

  datatype World = World(cells: Cells, disk: Option<Value>, execs: seq<Exec>, calls: seq<Call>)

  /** A freshly created instance; `disk` is whatever an earlier process left
      in the cache file. */
  function Init(alwaysRunPromise: bool, disk: Option<Value>): (w: World) {
    World(Construct(alwaysRunPromise), disk, [], [])
  }

  /** How many times the producer has been invoked. */
  function Invocations(w: World): (n: nat) {
    |w.execs|
  }

  /** The settled outcome of the promise held in the cell for `x`, if it has
      settled: the bare `executePromise` promise for the first eager call,
      the handler chain otherwise. Neither handler chain changes the
      outcome: `.then` returns the result and `.catch` rethrows. */
  function HandleOutcome(x: Exec): (o: Option<Outcome<Value, Error>>)
    // a handler chain is settled only once its handlers ran, and it settles as the run did
    ensures o.Some? <==> x.phase.Resolved? && (x.kind == Eager || x.handled)
    ensures o.Some? ==> o.value == x.phase.outcome
  {
    if !x.phase.Resolved? then None
    else if x.kind == Eager || x.handled then Some(x.phase.outcome)
    else None
  }

  /** How call `c` has settled, if it has. A call that returned a promise
      settles exactly as that promise does. */
  function CallOutcome(w: World, c: CallId): (o: Option<Outcome<Value, Error>>)
    requires c < |w.calls|
    // a call suspended on the file read or on its first execution has not settled
    ensures w.calls[c].pc.AwaitingRead? || w.calls[c].pc.AwaitingFirst? ==> o.None?
    // a call that returned a promise settles with that execution's outcome, once its handlers ran
    ensures w.calls[c].pc.Joined? && w.calls[c].pc.e < |w.execs| ==> o == HandleOutcome(w.execs[w.calls[c].pc.e])
  {
    match w.calls[c].pc
    case Returned(v) => Some(Ok(v))
    case Failed(err) => Some(Fail(err))
    case Joined(e) => if e < |w.execs| then HandleOutcome(w.execs[e]) else None
    case _ => None
  }

  datatype Event =
    | Invoke(arg: Arg)                              // a new `getResult(arg)` call
    | ProducerDone(e: ExecId, result: Outcome<Value, Cause>)  // line 39 resumes
    | WriteDone(e: ExecId, fault: Option<Cause>)    // line 40 resumes
    | HandlerRuns(e: ExecId)                        // the `.then`/`.catch` of execution `e`
    | ReadDone(c: CallId, fault: Option<Cause>, early: bool)  // line 78 resumes
    | FirstResumes(c: CallId)                       // line 48 resumes

  /** The scheduler may only resume what is actually suspended. */
  predicate Enabled(w: World, ev: Event) {
    match ev
    case Invoke(_) => true
    case ProducerDone(e, _) => e < |w.execs| && w.execs[e].phase.Producing?
    case WriteDone(e, _) => e < |w.execs| && w.execs[e].phase.Writing?
    case HandlerRuns(e) =>
      e < |w.execs| && w.execs[e].kind != Eager && w.execs[e].phase.Resolved? && !w.execs[e].handled
    case ReadDone(c, _, _) => c < |w.calls| && w.calls[c].pc.AwaitingRead?
    case FirstResumes(c) =>
      && c < |w.calls| && w.calls[c].pc.AwaitingFirst?
      && w.calls[c].pc.e < |w.execs| && w.execs[w.calls[c].pc.e].phase.Resolved?
  }

  /** The execution a segment starts, as a sequence of zero or one. */
  function Spawn(started: Option<Kind>, origin: CallId, arg: Arg): (xs: seq<Exec>)
    ensures |xs| <= 1 && (|xs| == 1 <==> started.Some?)
    ensures |xs| == 1 ==> xs[0] == Exec(started.value, origin, arg, Producing, false)
  {
    match started
    case Some(k) => [Exec(k, origin, arg, Producing, false)]
    case None => []
  }

  /** Resume execution `e` with `ev`. */
  function AdvanceExec(w: World, e: ExecId, ev: ExecEvent): (w': World)
    requires e < |w.execs| && Accepts(w.execs[e].phase, ev)
  {
    var x := w.execs[e];
    var p := Advance(x.phase, w.disk, ev);
    w.(disk := p.disk, execs := w.execs[e := x.(phase := p.phase)])
  }

  /** The file content a read of call `c` delivers: what the file held when
      the read was issued (`early`) or what it holds now. A read that
      overlaps a write may see either. */
  function Seen(w: World, c: CallId, early: bool): (d: Option<Value>)
    requires c < |w.calls|
    ensures d == w.disk || d == w.calls[c].readStart
  {
    if early then w.calls[c].readStart else w.disk
  }

  /** Run the segment the event resumes. */
  function Step(w: World, ev: Event): (w': World)
    requires Enabled(w, ev)
    // only a new call adds a call; at most one execution starts per segment
    ensures |w'.calls| == |w.calls| + (if ev.Invoke? then 1 else 0)
    ensures |w.execs| <= |w'.execs| <= |w.execs| + 1
    // what a call or execution was started with never changes
    ensures forall c :: 0 <= c < |w.calls| ==> w'.calls[c].arg == w.calls[c].arg && w'.calls[c].readStart == w.calls[c].readStart
    ensures forall e :: 0 <= e < |w.execs| ==>
      w'.execs[e].kind == w.execs[e].kind && w'.execs[e].origin == w.execs[e].origin && w'.execs[e].arg == w.execs[e].arg
    // a new call carries its arguments and issues its read against the current file
    ensures ev.Invoke? ==> w'.calls[|w.calls|].arg == ev.arg && w'.calls[|w.calls|].readStart == w.disk
    // a new execution is started by a new call or by a call passing its read, with that call's arguments
    ensures |w'.execs| > |w.execs| ==>
      && (ev.Invoke? || ev.ReadDone?)
      && w'.execs[|w.execs|].origin == (if ev.Invoke? then |w.calls| else ev.c)
      && w'.execs[|w.execs|].arg == w'.calls[w'.execs[|w.execs|].origin].arg
      && w'.execs[|w.execs|].phase == Producing && !w'.execs[|w.execs|].handled
    // only a successful write changes the file
    ensures w'.disk != w.disk ==> ev.WriteDone? && ev.fault.None?
  {
    match ev
    case Invoke(a) =>
      var seg := Begin(w.cells, |w.execs|);
      World(seg.cells, w.disk, w.execs + Spawn(seg.started, |w.calls|, a), w.calls + [Call(a, seg.pc, w.disk)])
    case ProducerDone(e, o) => AdvanceExec(w, e, ProducerSettles(o))
    case WriteDone(e, fault) => AdvanceExec(w, e, WriteSettles(fault))
    case HandlerRuns(e) =>
      var x := w.execs[e];
      w.(cells := Settle(w.cells, x.kind, x.phase.outcome), execs := w.execs[e := x.(handled := true)])
    case ReadDone(c, fault, early) =>
      var call := w.calls[c];
      var seg := AfterRead(w.cells, ReadCache(Observe(Seen(w, c, early), fault)), |w.execs|);
      World(seg.cells, w.disk, w.execs + Spawn(seg.started, c, call.arg), w.calls[c := call.(pc := seg.pc)])
    case FirstResumes(c) =>
      var call := w.calls[c];
      var seg := AfterFirst(w.cells, w.execs[call.pc.e].phase.outcome);
      w.(cells := seg.cells, calls := w.calls[c := call.(pc := seg.pc)])
  }

  /** Play a trace; `None` as soon as an event is not enabled. */
  function Run(w: World, evs: seq<Event>): (r: Option<World>)
    decreases |evs|
  {
    if |evs| == 0 then Some(w)
    else if !Enabled(w, evs[0]) then None
    else Run(Step(w, evs[0]), evs[1..])
  }

  lemma {:induction false} RunAppend(w: World, a: seq<Event>, b: seq<Event>)
    ensures Run(w, a + b) == (match Run(w, a) case Some(w1) => Run(w1, b) case None => None)
    decreases |a|
  {
    if |a| > 0 {
      assert (a + b)[0] == a[0];
      assert (a + b)[1..] == a[1..] + b;
      if Enabled(w, a[0]) {
        RunAppend(Step(w, a[0]), a[1..], b);
      }
    } else {
      assert a + b == b;
    }
  }
}

=== FILE: single_flight.dfy ===
/** The coordination the wrapper exists for, in lazy mode (index.ts:63-94).
    Under every interleaving at most one producer execution is in flight,
    and it is the one the cell holds. Calls that arrive together at a cold
    instance moreover share exactly one execution and all settle with its
    result, when nothing fails and every read sees the file as it is when
    the read completes; the races module shows what happens otherwise. */
module SingleFlight {
  import opened Base
  import opened Execution
  import opened CachedFn
  import opened Storage
  import opened Scheduler

  /** One `getResult` call per argument, in order. */
  function Invokes(args: seq<Arg>): (evs: seq<Event>)
    ensures |evs| == |args|
    ensures forall i :: 0 <= i < |args| ==> evs[i] == Invoke(args[i])
    decreases |args|
  {
    if |args| == 0 then [] else Invokes(args[..|args| - 1]) + [Invoke(args[|args| - 1])]
  }

  /** No new call, no failure of the producer, of a write or of a read, and
      reads see the file as it is when they complete. */
  predicate Calm(ev: Event) {
    match ev
    case Invoke(_) => false
    case ProducerDone(_, o) => o.Ok?
    case WriteDone(_, fault) => fault.None?
    case HandlerRuns(_) => true
    case ReadDone(_, fault, early) => fault.None? && !early
    case FirstResumes(_) => false
  }

  /** Every call waits on the read, joined the one execution, or returned the
      value that execution delivered. */
  predicate CallShares(w: World, c: CallId)
    requires c < |w.calls| && |w.execs| == 1
  {
    match w.calls[c].pc
    case AwaitingRead => true
    case Joined(e) => e == 0
    case Returned(v) => w.execs[0].phase == Resolved(Ok(v))
    case _ => false
  }

  /** `n` calls entered a cold lazy instance and exactly one execution runs:
      the file and memory hold its value once it resolved and handled
      respectively, and nothing else; the cell holds it until it is
      handled. */
  predicate OneFlight(w: World, n: nat) {
    && n > 0 && |w.calls| == n && |w.execs| == 1
    && !w.cells.alwaysRunPromise
    && w.execs[0].kind == Refresh && w.execs[0].origin == 0
    && (w.execs[0].phase.Resolved? ==> w.execs[0].phase.outcome.Ok?)
    && (w.execs[0].handled ==> w.execs[0].phase.Resolved?)
    && (!w.execs[0].phase.Resolved? ==> w.disk.None?)
    && (w.execs[0].phase.Resolved? ==> w.disk == Some(w.execs[0].phase.outcome.value))
    && w.cells.promiseInProgress == (if w.execs[0].handled then None else Some(0))
    && (w.cells.cachedResult.Some? ==> w.execs[0].phase == Resolved(Ok(w.cells.cachedResult.value)))
    && (forall c :: 0 <= c < n ==> CallShares(w, c))
  }

  /** After the calls arrive and before anything settles, every call waits on
      its read of the still-absent file and the first one's execution is in
      flight. */
  lemma {:induction false} ColdArrivals(args: seq<Arg>)
    requires |args| > 0
    ensures Run(Init(false, None), Invokes(args)).Some?
    ensures var w := Run(Init(false, None), Invokes(args)).value;
      && OneFlight(w, |args|)
      && w.execs[0].phase.Producing?
      && (forall c :: 0 <= c < |args| ==> w.calls[c].pc.AwaitingRead?)
    decreases |args|
  {
    var init := Init(false, None);
    var k := |args| - 1;
    if k == 0 {
      assert Invokes(args) == [Invoke(args[0])];
    } else {
      ColdArrivals(args[..k]);
      assert Invokes(args) == Invokes(args[..k]) + [Invoke(args[k])];
      RunAppend(init, Invokes(args[..k]), [Invoke(args[k])]);
      var w0 := Run(init, Invokes(args[..k])).value;
      var w1 := Step(w0, Invoke(args[k]));
      assert Run(init, Invokes(args)) == Some(w1);
      assert forall c :: 0 <= c < k ==> w1.calls[c] == w0.calls[c];
    }
  }

  lemma CalmStepKeepsOneFlight(w: World, n: nat, ev: Event)
    requires OneFlight(w, n) && Calm(ev) && Enabled(w, ev)
    ensures OneFlight(Step(w, ev), n)
  {
    var w' := Step(w, ev);
    if ev.ReadDone? {
      var c := ev.c;
      var read := ReadCache(Observe(w.disk, None));
      var seg := AfterRead(w.cells, read, 1);
      assert Seen(w, c, ev.early) == w.disk;
      if w.execs[0].phase.Resolved? {
        assert read == Ok(w.disk);
        assert seg.pc == Returned(w.execs[0].phase.outcome.value);
      } else {
        assert read == Ok(None);
        assert w.cells.promiseInProgress == Some(0);
        assert seg.pc == Joined(0);
      }
      assert seg.started.None?;
      assert w'.execs == w.execs;
      assert w'.calls[c].pc == seg.pc;
      forall c' | 0 <= c' < n
        ensures CallShares(w', c')
      {
        if c' != c {
          assert w'.calls[c'] == w.calls[c'];
          assert CallShares(w, c');
        }
      }
    } else {
      assert w'.calls == w.calls;
      assert w.execs[0].phase.Resolved? ==> w'.execs[0].phase == w.execs[0].phase;
      forall c' | 0 <= c' < n
        ensures CallShares(w', c')
      {
        assert w'.calls[c'] == w.calls[c'];
        assert CallShares(w, c');
      }
    }
  }

  lemma {:induction false} CalmRunKeepsOneFlight(w: World, n: nat, evs: seq<Event>)
    requires OneFlight(w, n)
    requires forall i :: 0 <= i < |evs| ==> Calm(evs[i])
    requires Run(w, evs).Some?
    ensures OneFlight(Run(w, evs).value, n)
    decreases |evs|
  {
    if |evs| > 0 {
      CalmStepKeepsOneFlight(w, n, evs[0]);
      CalmRunKeepsOneFlight(Step(w, evs[0]), n, evs[1..]);
    }
  }

  /** Lazy mode keeps at most one execution in flight: every execution whose
      handlers have not yet run is the one the cell holds. */
  predicate HeldWhileInFlight(w: World) {
    && !w.cells.alwaysRunPromise
    && (forall e :: 0 <= e < |w.execs| && !w.execs[e].handled ==> w.cells.promiseInProgress == Some(e))
    && (forall c :: 0 <= c < |w.calls| ==> !w.calls[c].pc.AwaitingFirst?)
  }

  /** index.ts:63, 88 start an execution only when the cell is empty, and
      only a settlement handler (index.ts:66, 69, 90) empties it. */
  lemma StepKeepsHeldWhileInFlight(w: World, ev: Event)
    requires HeldWhileInFlight(w) && Enabled(w, ev)
    ensures HeldWhileInFlight(Step(w, ev))
  {
  }

  lemma {:induction false} RunKeepsHeldWhileInFlight(w: World, evs: seq<Event>)
    requires HeldWhileInFlight(w) && Run(w, evs).Some?
    ensures HeldWhileInFlight(Run(w, evs).value)
    decreases |evs|
  {
    if |evs| > 0 {
      StepKeepsHeldWhileInFlight(w, evs[0]);
      RunKeepsHeldWhileInFlight(Step(w, evs[0]), evs[1..]);
    }
  }

  /** The single-flight guarantee of lazy mode, under every interleaving,
      with failures, stale reads and late calls: at most one producer
      execution is in flight at any time, and it is the one the cell holds,
      so every call that finds the cell set joins it rather than starting
      another. */
  lemma LazyAtMostOneInFlight(d: Option<Value>, evs: seq<Event>)
    requires Run(Init(false, d), evs).Some?
    ensures var w := Run(Init(false, d), evs).value;
      && (forall e :: 0 <= e < |w.execs| && !w.execs[e].handled ==> w.cells.promiseInProgress == Some(e))
      && (forall e1, e2 :: 0 <= e1 < |w.execs| && 0 <= e2 < |w.execs| && !w.execs[e1].handled && !w.execs[e2].handled
            ==> e1 == e2)
  {
    RunKeepsHeldWhileInFlight(Init(false, d), evs);
  }

  /** Nothing is left to resume: every execution's promise chain has
      settled and no call is suspended. */
  predicate Quiescent(w: World) {
    && (forall e :: 0 <= e < |w.execs| ==> HandleOutcome(w.execs[e]).Some?)
    && (forall c :: 0 <= c < |w.calls| ==> !w.calls[c].pc.AwaitingRead? && !w.calls[c].pc.AwaitingFirst?)
  }

  /** Single flight on a cold lazy instance (index.ts:63-86): calls that all
      arrive before anything settles cause exactly one producer invocation,
      every call that has settled got that invocation's value, and once
      everything has settled every call has. */
  lemma SingleFlightOnColdLazyInstance(args: seq<Arg>, rest: seq<Event>)
    requires |args| > 0
    requires forall i :: 0 <= i < |rest| ==> Calm(rest[i])
    requires Run(Init(false, None), Invokes(args) + rest).Some?
    ensures var w := Run(Init(false, None), Invokes(args) + rest).value;
      && Invocations(w) == 1 && |w.calls| == |args|
      && (forall c :: 0 <= c < |args| ==> CallOutcome(w, c).Some? ==>
            w.execs[0].phase.Resolved? && w.execs[0].phase.outcome.Ok? &&
            CallOutcome(w, c) == Some(w.execs[0].phase.outcome))
      && (Quiescent(w) ==> forall c :: 0 <= c < |args| ==> CallOutcome(w, c) == Some(w.execs[0].phase.outcome))
  {
    var init := Init(false, None);
    ColdArrivals(args);
    RunAppend(init, Invokes(args), rest);
    var w0 := Run(init, Invokes(args)).value;
    CalmRunKeepsOneFlight(w0, |args|, rest);
    var w := Run(init, Invokes(args) + rest).value;
    assert OneFlight(w, |args|);
    forall c | 0 <= c < |args|
      ensures CallOutcome(w, c).Some? ==>
        w.execs[0].phase.Resolved? && w.execs[0].phase.outcome.Ok? && CallOutcome(w, c) == Some(w.execs[0].phase.outcome)
      ensures Quiescent(w) ==> CallOutcome(w, c) == Some(w.execs[0].phase.outcome)
    {
      assert CallShares(w, c);
      if Quiescent(w) {
        assert HandleOutcome(w.execs[0]).Some?;
      }
    }
  }
}

=== FILE: storage.dfy ===
/** The cache file behind `readCache` and `writeCache` (index.ts:21-36).
    The file is a single cell that either holds a value or does not exist;
    JSON encoding is taken to be an exact round trip, so the cell holds the
    value itself. File-system failures are chosen by the scheduler. */
module Storage {
  import opened Base

  /** What `fs.readFile` followed by `JSON.parse` delivers. */
  datatype FileRead =
    | Contents(v: Value)       // the file exists and parses back to `v`
    | NotFound                 // the read rejected with code ENOENT
    | ReadError(cause: Cause)  // any other read rejection, or a parse error

  /** The read the file system delivers when the file holds `disk` and the
      scheduler injects `fault` (or no fault). */
  function Observe(disk: Option<Value>, fault: Option<Cause>): (f: FileRead)
    ensures f.ReadError? <==> fault.Some?
    ensures f.ReadError? ==> f.cause == fault.value
    ensures f.Contents? <==> fault.None? && disk.Some?
    ensures f.Contents? ==> f.v == disk.value
    ensures f.NotFound? <==> fault.None? && disk.None?
  {
    match fault
    case Some(c) => ReadError(c)
    case None => if disk.Some? then Contents(disk.value) else NotFound
  }

  /** `readCache`: the parsed value when the file exists, `None` (the
      source's `null`) when it is absent, and a rejection carrying the
      original error for every other failure. */
  function ReadCache(f: FileRead): (r: Outcome<Option<Value>, Error>)
    ensures r.Ok? && r.value.Some? <==> f.Contents?
    ensures f.Contents? ==> r == Ok(Some(f.v))
    ensures r.Ok? && r.value.None? <==> f.NotFound?
    ensures r.Fail? <==> f.ReadError?
    ensures f.ReadError? ==> r == Fail(ReadFailed(f.cause))
  {
    match f
    case Contents(v) => Ok(Some(v))
    case NotFound => Ok(None)
    case ReadError(c) => Fail(ReadFailed(c))
  }

  /** How a `writeCache` attempt settles, and what the file holds after it. */
  datatype WriteResult = WriteResult(disk: Option<Value>, outcome: Outcome<Value, Error>)

  /** `writeCache(v)`: on success the file holds `v` and the write fulfils;
      on a fault the write rejects and the file keeps its previous content. */
  function WriteCache(disk: Option<Value>, v: Value, fault: Option<Cause>): (r: WriteResult)
    ensures r.outcome.Ok? <==> fault.None?
    ensures r.outcome.Ok? ==> r.outcome.value == v && r.disk == Some(v)
    ensures r.outcome.Fail? ==> r.outcome.error == WriteFailed(fault.value) && r.disk == disk
  {
    match fault
    case None => WriteResult(Some(v), Ok(v))
    case Some(c) => WriteResult(disk, Fail(WriteFailed(c)))
  }

  /** Round trip: a value written successfully is what the next fault-free
      read delivers, so a fresh instance finds it. */
  lemma ReadAfterWrite(disk: Option<Value>, v: Value)
    ensures ReadCache(Observe(WriteCache(disk, v, None).disk, None)) == Ok(Some(v))
  {
  }

  /** Absence is not an error: a fault-free read of a file never written
      yields `None`, and only an injected fault makes `readCache` reject. */
  lemma AbsentIsNotAnError(disk: Option<Value>, fault: Option<Cause>)
    ensures ReadCache(Observe(disk, fault)).Fail? <==> fault.Some?
    ensures fault.None? && disk.None? ==> ReadCache(Observe(disk, fault)) == Ok(None)
  {
  }
}
